=== FILE: README.md ===
# Tab synchronizer: a Dafny model of the snapshot pipeline

The browser extension captures the open windows and tabs, including each
tab's scroll offset and the playback time of its first video. It posts this
snapshot to a small Flask/SQLite server, and can later reopen the latest
snapshot in new windows, replaying scroll and video positions. This project
models that pipeline as pure functions over small datatypes and proves what
each step promises.

- `wrappers.dfy` (`Wrappers`): `Option` and `Result`.
- `snapshot.dfy` (`Snapshot`): `Tab`, `Window`, `Session` and the
  browser's enumeration (`SourceTab`, `SourceWindow`).
- `page.dfy` (`Page`): the injected `getPositionData` probe, and the
  `setPositionData` applicator as a state machine. Its states are WaitLoad,
  GraceDelay and Done. It is driven by the `load` event, the expiry of the
  grace timer, and the page changing its own video elements.
- `capture.dfy` (`Capture`): the popup's `syncTabs` loop. The probe is an
  oracle `SourceTab -> Result<Position, ProbeFailure>`. The loop is a method
  proved equal to a reference `Assemble`. It also records which tabs it
  probed.
- `background.js` has its own copy of the loop, modelled as written in
  `background.dfy` (`Background`), with the array pushes as accumulators.
  It is proved equal to the popup's capture. The module also has the
  configuration gate of `performBackgroundSync`.
- `settings.dfy` (`Settings`): saving the trimmed server URL, and the
  "Please set server URL first" gate in front of the sync, open and view
  buttons.
- `restore.dfy` (`Restore`): `openSyncedTabs` as a decision plus a flat plan
  of actions: create window, create inactive tab, apply position. A parser
  reads the plan back, which gives the round-trip lemmas.
- `store.dfy` (`Store`): `save_tabs`, `get_latest_tabs` and
  `get_all_tab_history` over two append-only row tables. Each save passes
  its timestamp in as an ordered value.
- `pipeline.dfy` (`Pipeline`): capture, then post, store, serve the latest
  snapshot, and restore.

Modelling choices:
- The store's `SELECT`s on `windows` and `tabs` have no `ORDER BY` except on
  `created_at`. The model reads rows in insertion (rowid) order, which is
  what SQLite returns for these plain table scans. The ordered round trip
  (`Store.SaveThenGetLatest`) rests on that assumption.
- Scroll offsets and video times are `real`s. The code only copies them and
  compares them with `> 0`.
- The code treats only the exact prefix `chrome://` as privileged. Other
  internal schemes (`chrome-extension://`, `about:`, `edge://`) go to the
  probe and end up in its failure path. The model follows the code.
- The worker's own comment (background.js:20-21) asks for one shared capture
  routine. The code has two copies, so the model keeps both and proves them
  equal (`Background.BackgroundMatchesPopup`).

## Model

| member | source | states |
|---|---|---|
| Page.GetPositionData | popup.js:188-201 | The probe returns the current scroll offset. The video time is the first video's current time, or 0 when the page has no video. |
| Page.SetPositionData | popup.js:204-211 | When attached to a complete document it scrolls at once and starts the grace delay. Otherwise it changes nothing and waits for `load`. |
| Page.Step | popup.js:204-223 | The scroll offset is written only when `load` arrives while waiting. Only the grace-timer step touches the videos: it changes only the first video, seeking it to the timestamp if it exists and the timestamp is > 0. Other steps keep the videos, except that the page's own video changes are taken over without changing the phase. `load` or a video change during the grace delay keeps the delay running. Done stays Done. |
| Page.NoApplyBeforeLoad | popup.js:206-210 | Any event sequence without `load` leaves a waiting applicator waiting, with the scroll offset unchanged. |
| Page.DoneIsTerminal | popup.js:212-223 | After the timer callback has run, no later event makes the applicator write the scroll offset again. |
| Page.ApplyThenProbe | popup.js:188-224 | After `load` and the grace delay, probing gives back the applied scroll offset. It also gives back the timestamp when a video exists and the timestamp is > 0, and 0 when there is no video. |
| Capture.CaptureTab | popup.js:90-123 | Every entry keeps url and title. A `chrome://` tab gets zero positions. Otherwise a successful probe's values are copied and a failed probe gives zeros. |
| Capture.CaptureTabs | popup.js:90-124 | One entry per tab, in tab order, whatever the probe outcomes. |
| Capture.Assemble | popup.js:84-127 | One window entry per enumerated window, in order. Each carries the source window id and its tabs' entries. |
| Capture.Eligible | popup.js:92-107 | The tabs probed in one window are exactly its tabs without the `chrome://` prefix. |
| Capture.ProbeTargets | popup.js:84-107 | No `chrome://` tab is ever a probe target, and every other tab of every window is one. |
| Capture.CaptureWindowTabs | popup.js:90-124 | The loop over one window's tabs builds exactly the reference entries and probes exactly the eligible tabs, in order. |
| Capture.SyncTabs | popup.js:80-127 | The capture loop yields the reference snapshot: same window count, ids, per-window tab counts and order. It probes exactly the non-`chrome://` tabs, in enumeration order. |
| Capture.ProbeNotConsultedForPrivileged | popup.js:92-100 | Two probes that agree on every non-`chrome://` tab produce the same snapshot, so the probe's answer for a `chrome://` tab never matters. |
| Capture.CaptureReadsPage | popup.js:102-123 | An ordinary tab whose document the script reaches is recorded with that document's scroll offset and its first video's time, or 0 without a video. A tab the script cannot reach is recorded with zeros. |
| Capture.RecaptureAfterRestore | popup.js:102-114 | A page that has received a position, after `load` and the grace delay, is captured again with the same scroll offset and video time, when it has a video and the time is positive. |
| Settings.Trim | popup.js:25 | The result is a contiguous slice of the input with only whitespace before and after it. It is empty exactly when the input is all whitespace; otherwise it starts and ends with a non-whitespace character. |
| Settings.SaveSettings | popup.js:24-33 | A URL is saved exactly when the input has a non-whitespace character. The saved value is the trimmed input and is non-empty. |
| Settings.DispatchCommand | popup.js:36-69 | Sync, open and view are refused exactly when no non-empty server URL is stored. Otherwise they run with the stored URL. |
| Settings.GateReportsMissingUrl | popup.js:36-69 | "Please set server URL first" is shown exactly when no non-empty server URL is stored; otherwise the command goes ahead without it. |
| Settings.SavedSettingEnablesCommands | popup.js:24-57 | An input with a non-whitespace character is saved, and every command then passes the gate with the trimmed URL. |
| Settings.SaveReportsOutcome | popup.js:24-33 | The save handler reports "Settings saved" exactly when the input has a non-whitespace character, and "Please enter a valid server URL" exactly when it is all whitespace. |
| Background.PushTabs | background.js:32-66 | The per-tab loop as written pushes exactly one entry per tab and leaves the entries already pushed in place. Which entries it pushes is `Background.PushTabsCaptures`. |
| Background.PushWindows | background.js:26-69 | The per-window loop as written pushes exactly one entry per window and leaves earlier entries in place. Their contents are `Background.PushWindowsAssembles`. |
| Background.PushTabsCaptures | background.js:32-66 | The background per-tab loop appends exactly the popup's entries for the window's tabs. |
| Background.PushWindowsAssembles | background.js:26-69 | The background per-window loop appends exactly the popup's window entries. |
| Background.BackgroundMatchesPopup | background.js:22-69 | With the same enumeration and probe, the background assembly equals the popup's. |
| Background.PerformBackgroundSync | background.js:5-15 | A cycle is a no-op exactly when no server URL is configured. Otherwise it pushes the popup-equivalent capture to the stored URL. |
| Background.PerformBackgroundSyncAsWritten | background.js:44-65 | As written, because `getPositionData` is undefined in the worker, every pushed entry has zero scroll and video, and every window keeps its id and its tab count, empty windows included. |
| Background.AsWrittenLosesPositions | background.js:48 | Example: a tab at scroll 120 with video at 42.5 is captured as such by the popup but pushed as zeros by the background as written. With the probe defined, the cycle pushes the popup's capture. |
| Background.BackgroundPositionsAlwaysZero | background.js:57-65 | Under the undefined-probe reading every window keeps its id and tab count, and every entry keeps url and title with both positions zeroed. |
| Restore.OpenSyncedTabs | popup.js:148-184 | The plan is produced exactly when the pull succeeded with status `success` and non-empty data. A failed pull is reported separately. The plan reads back as the pulled windows and tabs. |
| Restore.PlanActions | popup.js:153-174 | An empty snapshot plans nothing; otherwise the plan starts by creating a window. What the plan holds is `Restore.PlanRoundTrip`. |
| Restore.TabsRoundTrip | popup.js:155-171 | Each tab is planned as an inactive tab at its url followed by an apply with exactly its scroll and video, in tab order. |
| Restore.PlanRoundTrip | popup.js:153-174 | The plan opens one new window per snapshot window, in order, and its tabs as above. This holds even with further windows after it. |
| Restore.RestoreTwiceDuplicates | popup.js:148-175 | Restoring the same snapshot twice is not deduplicated: every window and tab is opened twice. |
| Restore.StatusReportsOutcome | popup.js:152-182 | The restore reports "Tabs opened successfully" exactly for a successful pull with status `success` and data. It reports "Error opening tabs" exactly when the pull failed, and "No synced tabs found" in every other case. |
| Restore.EmptySnapshotOpensNothing | popup.js:152-178 | A `success` response with no windows opens nothing and reports "No synced tabs found". |
| Store.StoredTab | server/database.py:52-53 | A missing title is stored as `''`, and missing scroll or video as 0. Present values are kept. |
| Store.TabsOfOneWindow | server/database.py:47-54 | Selecting by the new window id the tab rows written for one posted window returns that window's tabs in posted order, with defaults applied. |
| Store.TabsOfOtherWindow | server/database.py:47-54 | Tab rows written for one window are never selected for a different window id. |
| Store.NewTabRowsReferenceNewWindows | server/database.py:40-54 | Every tab row a save appends references one of the ids allocated by that save and carries its timestamp. |
| Store.InsertWindows | server/database.py:40-54 | The save loop appends exactly one window row per posted window, with consecutive fresh ids and the save's timestamp. |
| Store.SaveTabs | server/database.py:33-58 | The save returns true and only appends: existing rows are unchanged. New rows share one timestamp and use consecutive ids from the store's counter, never the client's. The store invariant is preserved, and an empty save changes nothing. |
| Store.WindowsAt | server/database.py:75-78 | The window-id query returns no more rows than the table holds. Which rows it returns is `Store.WindowsAtSelects`. |
| Store.TabsOf | server/database.py:82-86 | The per-window tab query returns no more tabs than there are tab rows. Which tabs it returns is `Store.TabsOfOneWindow`, `Store.TabsOfOtherWindow` and `Store.TabsOfNewWindow`. |
| Store.WindowsAtSelects | server/database.py:75-78 | The selected window rows are exactly the rows with the given timestamp. |
| Store.GetLatestTabs | server/database.py:60-100 | An empty windows table gives `[]`. Otherwise the latest stamp is the maximum stored stamp. The result has one entry per selected row, at least one, in order. Each entry has that row's id and exactly the tabs whose rows reference it. |
| Store.LatestIsPresent | server/database.py:67-78 | The latest timestamp belongs to at least one stored window. |
| Store.TabsOfNewWindow | server/database.py:45-51 | The tab rows selected for the i-th new window id are exactly the i-th posted window's tabs. |
| Store.FreshSaveIsLatest | server/database.py:67-78 | After a non-empty save stamped later than all rows, its stamp is the latest and its window rows are exactly the latest rows. |
| Store.SaveThenGetLatest | server/database.py:38-100 | Round trip: after such a save, `get_latest_tabs` returns the saved windows in order. They have fresh ids, and each tab has the stored url, title, scroll and video. |
| Store.EmptySaveKeepsLatest | server/database.py:40-58 | An empty post inserts nothing, so the latest snapshot read back stays the previous one. |
| Store.DistinctDescending | server/database.py:109-111 | The distinct timestamps are returned strictly descending, with no stamp missing or added. The first is the maximum. |
| Store.GetAllTabHistory | server/database.py:102-143 | One entry per distinct timestamp, newest first. Each lists that timestamp's windows with their tabs' url and title only. |
| Store.HistoryHeadIsLatest | server/database.py:109-140 | The newest history entry is the latest snapshot with positions dropped. |
| Pipeline.Encode | popup.js:129-136 | The posted body has one entry per window with the same client window id. Storing its tabs gives back the session's tabs unchanged. |
| Pipeline.ServeLatest | server/app.py:20-23 | The latest-snapshot endpoint always reports status `success`. |
| Pipeline.SyncStatus | popup.js:137-143 | The push reports "Tabs synced successfully" exactly when a reply arrives and parses as JSON, whatever it says, and "Error syncing tabs" exactly when the request or parsing failed. |
| Pipeline.PushThenPull | server/database.py:33-100 | Pushing a non-empty session with a fresh timestamp, then pulling, gives back the same tabs per window in the same order. |
| Pipeline.SyncThenRestore | popup.js:80-184 | Capture, push, pull and restore open the captured windows and tabs in order. Each tab is inactive at its url and gets its captured position. |

## Findings

| source | as written | input that shows it | evidently intended | confidence | as-written member | corrected member |
|---|---|---|---|---|---|---|
| background.js:48 | The worker's `syncTabs` passes `getPositionData` to `executeScript`. No function of that name is defined in the worker script, so evaluating it throws inside the `try` and the `catch` zeroes every non-`chrome://` tab. | One window with an `https://` tab whose page is scrolled to 120 with its video at 42.5: the background pushes 0 and 0. | The same positions as the popup's capture. | medium, not executed (a script loaded beside the worker could define it) | Background.PerformBackgroundSyncAsWritten | Background.PerformBackgroundSync |

## Left out

- The host APIs (`chrome.windows`, `chrome.tabs`, `chrome.scripting`, `chrome.storage`) are inputs instead: the enumeration, the probe oracle, the stored setting, and the action plan.
- The host's own behaviour is not modelled either. This includes the default tab Chrome puts into a window created with `{}`, and the clamping of `scrollTo` and `currentTime` to the page's range.
- `fetch`, JSON encoding and response parsing: a push is modelled as its body (`Pipeline.Encode`). A pull is a `Result` whose failure stands for every `.catch` path.
- Timers and scheduling: the 60 s interval, the 1000 ms grace delay (the `GraceElapsed` event) and the 3000 ms status clear. Overlapping sync cycles are concurrency and are not modelled.
- UI and DOM wiring: `showStatus`, button listeners and `DOMContentLoaded`. Only the status texts of saving the URL, the URL gate, the push and the restore are kept, as constants tied to the outcomes that show them. The history view (popup.js:67) only opens a tab, so it is modelled only as passing the URL gate.
- SQLite connections and `datetime.now()`. Timestamps are ordered values passed to `Store.SaveTabs`. A posted tab without `url` makes the server raise, and is not modelled, because the extension always sends one.
- Tab URLs are assumed to be strings. A tab without a readable URL would make `startsWith` throw outside the `try` and abort the whole capture; this is not modelled.
- Store.GetLatestTabs: returns windows and tabs in rowid order. SQL gives no order without `ORDER BY`, so the ordered round trip depends on that assumption.
- Pipeline.PushThenPull: requires a non-empty session. An empty save inserts no rows, so the next pull returns the previous snapshot (`Store.EmptySaveKeepsLatest`).
- server/app.py routes other than the latest-snapshot endpoint, CORS and `init_db` are thin wrappers and are not modelled.

=== FILE: background.dfy ===
/**
 * The background worker: every sync period it reads the server URL and, if
 * one is set, runs its own copy of the capture loop and pushes the result.
 * The copy is modelled as written, accumulating entries into arrays, and is
 * proved to produce the popup's capture.
 */
module Background {
  import opened Wrappers
  import opened Snapshot
  import Capture
  import Settings

  /** The per-tab loop: push one entry per tab onto `acc`. */
  function PushTabs(tabs: seq<SourceTab>, probe: Capture.Probe, acc: seq<Tab>): (r: seq<Tab>)
    // one push per tab; what was pushed before stays in place
    ensures |r| == |acc| + |tabs| && r[..|acc|] == acc
    decreases |tabs|
  {
    if |tabs| == 0 then acc
    else
      var tab := tabs[0];
      var entry :=
        if Capture.PrivilegedScheme <= tab.url then
          Tab(tab.url, tab.title, 0.0, 0.0)
        else
          match probe(tab)
          case Success(result) => Tab(tab.url, tab.title, result.scrollPosition, result.videoTimestamp)
          case Failure(_) => Tab(tab.url, tab.title, 0.0, 0.0);
      PushTabs(tabs[1..], probe, acc + [entry])
  }

  /** The per-window loop: push one `{window_id, tabs}` entry per window onto `acc`. */
  function PushWindows(windows: seq<SourceWindow>, probe: Capture.Probe, acc: Session): (r: Session)
    // one push per window; what was pushed before stays in place
    ensures |r| == |acc| + |windows| && r[..|acc|] == acc
    decreases |windows|
  {
    if |windows| == 0 then acc
    else
      var window := windows[0];
      PushWindows(windows[1..], probe, acc + [Window(window.id, PushTabs(window.tabs, probe, []))])
  }

  /** The background copy of `syncTabs`, up to the push. */
  function BackgroundSyncTabs(windows: seq<SourceWindow>, probe: Capture.Probe): Session {
    PushWindows(windows, probe, [])
  }

  lemma {:induction false} PushTabsCaptures(tabs: seq<SourceTab>, probe: Capture.Probe, acc: seq<Tab>)
    ensures PushTabs(tabs, probe, acc) == acc + Capture.CaptureTabs(tabs, probe)
    decreases |tabs|
  {
    if |tabs| > 0 {
      var entry := Capture.CaptureTab(tabs[0], probe);
      PushTabsCaptures(tabs[1..], probe, acc + [entry]);
      assert Capture.CaptureTabs(tabs, probe) == [entry] + Capture.CaptureTabs(tabs[1..], probe);
    } else {
      assert Capture.CaptureTabs(tabs, probe) == [];
    }
  }

  lemma {:induction false} PushWindowsAssembles(windows: seq<SourceWindow>, probe: Capture.Probe, acc: Session)
    ensures PushWindows(windows, probe, acc) == acc + Capture.Assemble(windows, probe)
    decreases |windows|
  {
    if |windows| > 0 {
      PushTabsCaptures(windows[0].tabs, probe, []);
      var entry := Capture.CaptureWindow(windows[0], probe);
      assert [] + Capture.CaptureTabs(windows[0].tabs, probe) == entry.tabs;
      assert Window(windows[0].id, PushTabs(windows[0].tabs, probe, [])) == entry;
      PushWindowsAssembles(windows[1..], probe, acc + [entry]);
      assert Capture.Assemble(windows, probe) == [entry] + Capture.Assemble(windows[1..], probe);
    } else {
      assert Capture.Assemble(windows, probe) == [];
    }
  }

  /** Given the same enumeration and probe outcomes, the background capture equals the popup's. */
  lemma BackgroundMatchesPopup(windows: seq<SourceWindow>, probe: Capture.Probe)
    ensures BackgroundSyncTabs(windows, probe) == Capture.Assemble(windows, probe)
  {
    PushWindowsAssembles(windows, probe, []);
  }

  /** One background cycle. */
  datatype Cycle = Skipped | Pushed(serverUrl: string, body: Session)

  /** `performBackgroundSync`: a no-op when no server URL is configured, otherwise capture then push. */
  function PerformBackgroundSync(stored: Option<string>, windows: seq<SourceWindow>, probe: Capture.Probe)
    : (c: Cycle)
    ensures c.Skipped? <==> !Settings.Configured(stored)
    ensures c.Pushed? ==> c.serverUrl == stored.value && c.body == Capture.Assemble(windows, probe)
  {
    if !Settings.Configured(stored) then Skipped
    else
      BackgroundMatchesPopup(windows, probe);
      Pushed(stored.value, BackgroundSyncTabs(windows, probe))
  }

  /**
   * The probe as the worker actually calls it: `getPositionData` is not
   * defined in the worker's script, so evaluating the reference throws.
   */
  const UndefinedGetPositionData: Capture.Probe := t => Failure(Capture.ReferenceError)

  /** The background cycle as written: the probe it runs is the undefined reference. */
  function PerformBackgroundSyncAsWritten(stored: Option<string>, windows: seq<SourceWindow>): (c: Cycle)
    ensures c.Skipped? <==> !Settings.Configured(stored)
    ensures c.Pushed? ==>
              && |c.body| == |windows|
              && (forall i :: 0 <= i < |windows| ==>
                    c.body[i].windowId == windows[i].id && |c.body[i].tabs| == |windows[i].tabs|)
              && (forall i, j :: 0 <= i < |windows| && 0 <= j < |windows[i].tabs| ==>
                    c.body[i].tabs[j] == Tab(windows[i].tabs[j].url, windows[i].tabs[j].title, 0.0, 0.0))
  {
    BackgroundPositionsAlwaysZero(windows);
    PerformBackgroundSync(stored, windows, UndefinedGetPositionData)
  }

  /**
   * A concrete cycle that shows the loss: one ordinary tab scrolled to 120
   * with its video at 42.5. The popup captures both values; the background
   * cycle as written pushes zeros, while the cycle with the probe defined
   * pushes what the popup captures.
   */
  lemma AsWrittenLosesPositions()
    ensures var tab := SourceTab(7, "https://example.org/talk", "Talk");
            var windows := [SourceWindow(1, [tab])];
            var probe: Capture.Probe := t => Success(Position(120.0, 42.5));
            var stored := Some("http://localhost:5000");
            && Capture.Assemble(windows, probe)[0].tabs[0] == Tab(tab.url, tab.title, 120.0, 42.5)
            && PerformBackgroundSyncAsWritten(stored, windows).body[0].tabs[0] == Tab(tab.url, tab.title, 0.0, 0.0)
            && PerformBackgroundSync(stored, windows, probe).body == Capture.Assemble(windows, probe)
  {
    var tab := SourceTab(7, "https://example.org/talk", "Talk");
    assert !Capture.IsPrivileged(tab.url) by {
      assert tab.url[0] == 'h' && Capture.PrivilegedScheme[0] == 'c';
    }
  }

  /** Under that reading every background entry keeps url and title and has zero positions. */
  lemma BackgroundPositionsAlwaysZero(windows: seq<SourceWindow>)
    ensures var s := BackgroundSyncTabs(windows, UndefinedGetPositionData);
            && |s| == |windows|
            && (forall i :: 0 <= i < |windows| ==>
                  s[i].windowId == windows[i].id && |s[i].tabs| == |windows[i].tabs|)
            && (forall i, j :: 0 <= i < |windows| && 0 <= j < |windows[i].tabs| ==>
                  s[i].tabs[j] == Tab(windows[i].tabs[j].url, windows[i].tabs[j].title, 0.0, 0.0))
  {
    BackgroundMatchesPopup(windows, UndefinedGetPositionData);
  }
}

=== FILE: capture.dfy ===
/**
 * Snapshot capture as done by the popup's `syncTabs`: every enumerated
 * window becomes one window entry and every tab one tab entry, in order.
 * The position probe is an oracle: it either returns a position or fails
 * (injection refused, tab gone, a thrown error), and failures are
 * downgraded to a zeroed entry.
 */
module Capture {
  import opened Wrappers
  import opened Snapshot
  import Page

  datatype ProbeFailure = InjectionDenied | TabClosed | ReferenceError

  /** Running the probe script in one tab and awaiting its result. */
  type Probe = SourceTab -> Result<Position, ProbeFailure>

  /** The probe a real page answers with: `getPositionData` run in the tab's document, if it can be reached. */
  function PageProbe(pages: SourceTab -> Option<Page.Document>): Probe {
    t => match pages(t)
         case Some(doc) => Success(Page.GetPositionData(doc))
         case None => Failure(InjectionDenied)
  }

  /** The URL prefix of pages into which no script may be injected. */
  const PrivilegedScheme: string := "chrome://"

  predicate IsPrivileged(url: string) {
    PrivilegedScheme <= url
  }

  /** The entry that keeps a tab's url and title and zeroes both positions. */
  function Zeroed(t: SourceTab): Tab {
    Tab(t.url, t.title, 0.0, 0.0)
  }

  /** The entry for one tab. */
  function CaptureTab(t: SourceTab, probe: Probe): (r: Tab)
    ensures r.url == t.url && r.title == t.title
    ensures IsPrivileged(t.url) ==> r.scrollPosition == 0.0 && r.videoTimestamp == 0.0
    ensures !IsPrivileged(t.url) && probe(t).Success? ==>
              r.scrollPosition == probe(t).value.scrollPosition
              && r.videoTimestamp == probe(t).value.videoTimestamp
    ensures !IsPrivileged(t.url) && probe(t).Failure? ==>
              r.scrollPosition == 0.0 && r.videoTimestamp == 0.0
  {
    if IsPrivileged(t.url) then Zeroed(t)
    else
      match probe(t)
      case Success(p) => Tab(t.url, t.title, p.scrollPosition, p.videoTimestamp)
      case Failure(_) => Zeroed(t)
  }

  function CaptureTabs(tabs: seq<SourceTab>, probe: Probe): (r: seq<Tab>)
    ensures |r| == |tabs|
    ensures forall k :: 0 <= k < |tabs| ==> r[k] == CaptureTab(tabs[k], probe)
  {
    seq(|tabs|, k requires 0 <= k < |tabs| => CaptureTab(tabs[k], probe))
  }

  function CaptureWindow(w: SourceWindow, probe: Probe): Window {
    Window(w.id, CaptureTabs(w.tabs, probe))
  }

  /** The reference definition of a whole capture. */
  function Assemble(windows: seq<SourceWindow>, probe: Probe): (r: Session)
    ensures |r| == |windows|
    ensures forall i :: 0 <= i < |windows| ==> r[i] == CaptureWindow(windows[i], probe)
  {
    seq(|windows|, i requires 0 <= i < |windows| => CaptureWindow(windows[i], probe))
  }

  /** The tabs of one window the probe is run against, in order. */
  function Eligible(tabs: seq<SourceTab>): (r: seq<SourceTab>)
    ensures forall t :: t in r ==> t in tabs && !IsPrivileged(t.url)
    ensures forall t :: t in tabs && !IsPrivileged(t.url) ==> t in r
    decreases |tabs|
  {
    if |tabs| == 0 then []
    else
      var last := tabs[|tabs| - 1];
      Eligible(tabs[..|tabs| - 1]) + (if IsPrivileged(last.url) then [] else [last])
  }

  /** The tabs of a whole enumeration the probe is run against, in order. */
  function ProbeTargets(windows: seq<SourceWindow>): (r: seq<SourceTab>)
    ensures forall t :: t in r ==> !IsPrivileged(t.url)
    ensures forall i, t :: 0 <= i < |windows| && t in windows[i].tabs && !IsPrivileged(t.url) ==> t in r
    decreases |windows|
  {
    if |windows| == 0 then []
    else ProbeTargets(windows[..|windows| - 1]) + Eligible(windows[|windows| - 1].tabs)
  }

  /** Extending a prefix of the tabs by one extends its capture and its probe targets by that tab's. */
  lemma PrefixSnoc(tabs: seq<SourceTab>, j: nat, probe: Probe)
    requires j < |tabs|
    ensures CaptureTabs(tabs[..j + 1], probe) == CaptureTabs(tabs[..j], probe) + [CaptureTab(tabs[j], probe)]
    ensures Eligible(tabs[..j + 1]) ==
              Eligible(tabs[..j]) + (if IsPrivileged(tabs[j].url) then [] else [tabs[j]])
  {
    assert tabs[..j + 1][..j] == tabs[..j];
  }

  /** Extending a prefix of the windows by one extends the capture and the probe targets by that window's. */
  lemma WindowSnoc(windows: seq<SourceWindow>, i: nat, probe: Probe)
    requires i < |windows|
    ensures Assemble(windows[..i + 1], probe) == Assemble(windows[..i], probe) + [CaptureWindow(windows[i], probe)]
    ensures ProbeTargets(windows[..i + 1]) == ProbeTargets(windows[..i]) + Eligible(windows[i].tabs)
  {
    assert windows[..i + 1][..i] == windows[..i];
  }

  /** The inner loop of the popup's capture: the entries of one window's tabs. */
  method CaptureWindowTabs(window: SourceWindow, probe: Probe)
    returns (tabs: seq<Tab>, probed: seq<SourceTab>)
    ensures tabs == CaptureTabs(window.tabs, probe)
    ensures probed == Eligible(window.tabs)
  {
    tabs := [];
    probed := [];
    for j := 0 to |window.tabs|
      invariant tabs == CaptureTabs(window.tabs[..j], probe)
      invariant probed == Eligible(window.tabs[..j])
    {
      var tab := window.tabs[j];
      var entry: Tab;
      if PrivilegedScheme <= tab.url {
        entry := Zeroed(tab);
      } else {
        probed := probed + [tab];
        var result := probe(tab);
        match result {
          case Success(p) =>
            entry := Tab(tab.url, tab.title, p.scrollPosition, p.videoTimestamp);
          case Failure(_) =>
            entry := Zeroed(tab);
        }
      }
      assert entry == CaptureTab(tab, probe);
      PrefixSnoc(window.tabs, j, probe);
      tabs := tabs + [entry];
    }
    assert window.tabs[..|window.tabs|] == window.tabs;
  }

  /**
   * The popup's capture loop. `probed` records, in order, every tab the
   * probe was run against.
   */
  method SyncTabs(windows: seq<SourceWindow>, probe: Probe)
    returns (windowsData: Session, probed: seq<SourceTab>)
    ensures windowsData == Assemble(windows, probe)
    ensures |windowsData| == |windows|
    ensures forall i :: 0 <= i < |windows| ==>
              windowsData[i].windowId == windows[i].id
              && |windowsData[i].tabs| == |windows[i].tabs|
    ensures probed == ProbeTargets(windows)
    ensures forall t :: t in probed ==> !IsPrivileged(t.url)
  {
    windowsData := [];
    probed := [];
    for i := 0 to |windows|
      invariant windowsData == Assemble(windows[..i], probe)
      invariant probed == ProbeTargets(windows[..i])
    {
      var tabs, probedHere := CaptureWindowTabs(windows[i], probe);
      WindowSnoc(windows, i, probe);
      windowsData := windowsData + [Window(windows[i].id, tabs)];
      probed := probed + probedHere;
    }
    assert windows[..|windows|] == windows;
  }

  /** The probe's answers for privileged tabs never influence the capture. */
  lemma ProbeNotConsultedForPrivileged(windows: seq<SourceWindow>, p1: Probe, p2: Probe)
    requires forall t: SourceTab :: !IsPrivileged(t.url) ==> p1(t) == p2(t)
    ensures Assemble(windows, p1) == Assemble(windows, p2)
  {
    forall i | 0 <= i < |windows|
      ensures CaptureWindow(windows[i], p1) == CaptureWindow(windows[i], p2)
    {
      var tabs := windows[i].tabs;
      assert CaptureTabs(tabs, p1) == CaptureTabs(tabs, p2);
    }
  }

  /**
   * Capturing through a real page: an ordinary tab whose document is
   * reachable is recorded with that document's scroll offset and its first
   * video's time (0 without a video); an unreachable one is zeroed.
   */
  lemma CaptureReadsPage(t: SourceTab, pages: SourceTab -> Option<Page.Document>)
    ensures !IsPrivileged(t.url) && pages(t).Some? ==>
              var doc := pages(t).value;
              CaptureTab(t, PageProbe(pages))
              == Tab(t.url, t.title, doc.scrollY, if |doc.videos| > 0 then doc.videos[0] else 0.0)
    ensures pages(t).None? ==> CaptureTab(t, PageProbe(pages)) == Zeroed(t)
  {
  }

  /**
   * Restore then capture: a tab whose page has received a position (after
   * `load` and the grace delay) is captured again with that same position,
   * provided the page has a video and the timestamp is positive.
   */
  lemma RecaptureAfterRestore(t: SourceTab, doc: Page.Document, data: Position)
    requires !IsPrivileged(t.url) && |doc.videos| > 0 && data.videoTimestamp > 0.0
    ensures var a := Page.Run(Page.SetPositionData(doc, data), [Page.LoadFired, Page.GraceElapsed]);
            CaptureTab(t, PageProbe(u => Some(a.doc)))
            == Tab(t.url, t.title, data.scrollPosition, data.videoTimestamp)
  {
    Page.ApplyThenProbe(doc, data);
  }
}

=== FILE: page.dfy ===
/**
 * The two functions injected into a tab: the position probe
 * (`getPositionData`) and the position applicator (`setPositionData`).
 * The applicator is a small state machine driven by the events its tab
 * delivers: the `load` event, the expiry of the grace-delay timer, and the
 * page changing its own set of video elements.
 */
module Page {
  import opened Snapshot

  datatype ReadyState = Loading | Interactive | Complete

  /**
   * A document as seen from inside its tab: readiness, the vertical scroll
   * offset, and the current playback time of every video element in document
   * order.
   */
  datatype Document = Document(readyState: ReadyState, scrollY: real, videos: seq<real>)

  /** The probe: the current scroll offset, and the first video's time or 0 when there is none. */
  function GetPositionData(doc: Document): (p: Position)
    ensures p.scrollPosition == doc.scrollY
    ensures |doc.videos| == 0 ==> p.videoTimestamp == 0.0
    ensures |doc.videos| > 0 ==> p.videoTimestamp == doc.videos[0]
  {
    var videoTimestamp := if |doc.videos| > 0 then doc.videos[0] else 0.0;
    Position(doc.scrollY, videoTimestamp)
  }

  /**
   * WaitLoad: listening for `load`. GraceDelay: scroll applied, grace timer
   * pending. Done: the timer callback has run; nothing more will be written.
   */
  datatype Phase = WaitLoad | GraceDelay | Done

  datatype Applicator = Applicator(phase: Phase, data: Position, doc: Document)

  datatype Event = LoadFired | GraceElapsed | VideosChanged(videos: seq<real>)

  /** `setPositions`: scroll now, then wait for the grace timer. */
  function SetPositions(a: Applicator): Applicator {
    a.(phase := GraceDelay, doc := a.doc.(scrollY := a.data.scrollPosition))
  }

  /** The grace timer callback: seek the first video only when one exists and the timestamp is positive. */
  function SeekVideo(a: Applicator): Applicator {
    var videos := a.doc.videos;
    if |videos| > 0 && a.data.videoTimestamp > 0.0 then
      a.(phase := Done, doc := a.doc.(videos := videos[0 := a.data.videoTimestamp]))
    else
      a.(phase := Done)
  }

  /** Attaching the applicator: apply at once if the document is complete, otherwise wait for `load`. */
  function SetPositionData(doc: Document, data: Position): (a: Applicator)
    ensures a.data == data
    ensures doc.readyState == Complete ==>
              a.phase == GraceDelay && a.doc == doc.(scrollY := data.scrollPosition)
    ensures doc.readyState != Complete ==> a.phase == WaitLoad && a.doc == doc
  {
    var start := Applicator(WaitLoad, data, doc);
    if doc.readyState == Complete then SetPositions(start) else start
  }

  /** One event delivered to the tab. */
  function Step(a: Applicator, e: Event): (b: Applicator)
    ensures b.data == a.data
    // the scroll offset is written only when `load` arrives while waiting for it
    ensures b.doc.scrollY != a.doc.scrollY ==>
              a.phase == WaitLoad && e == LoadFired && b.doc.scrollY == a.data.scrollPosition
    ensures a.phase == WaitLoad && e == LoadFired ==>
              b.phase == GraceDelay && b.doc.scrollY == a.data.scrollPosition
    ensures a.phase == WaitLoad && e != LoadFired ==> b.phase == WaitLoad
    ensures a.phase == Done ==> b.phase == Done
    ensures a.phase == GraceDelay && e != GraceElapsed ==> b.phase == GraceDelay
    // the page's own video changes are taken over as they are and change no phase
    ensures e.VideosChanged? ==> b.doc.videos == e.videos && b.phase == a.phase
    // only the grace-timer step touches the videos
    ensures !e.VideosChanged? && !(a.phase == GraceDelay && e == GraceElapsed) ==>
              b.doc.videos == a.doc.videos
    // after the grace delay the first video is seeked exactly when it exists and the timestamp is positive
    ensures a.phase == GraceDelay && e == GraceElapsed ==>
              b.phase == Done
              && |b.doc.videos| == |a.doc.videos|
              && (forall k :: 1 <= k < |a.doc.videos| ==> b.doc.videos[k] == a.doc.videos[k])
              && (|a.doc.videos| > 0 ==>
                    b.doc.videos[0] ==
                      (if a.data.videoTimestamp > 0.0 then a.data.videoTimestamp else a.doc.videos[0]))
  {
    match e
    case VideosChanged(videos) => a.(doc := a.doc.(videos := videos))
    case LoadFired =>
      var loaded := a.(doc := a.doc.(readyState := Complete));
      if a.phase == WaitLoad then SetPositions(loaded) else loaded
    case GraceElapsed =>
      if a.phase == GraceDelay then SeekVideo(a) else a
  }

  /** A sequence of events delivered in order. */
  function Run(a: Applicator, events: seq<Event>): Applicator
    decreases |events|
  {
    if |events| == 0 then a else Run(Step(a, events[0]), events[1..])
  }

  /** Until `load` fires, a waiting applicator writes nothing. */
  lemma {:induction false} NoApplyBeforeLoad(a: Applicator, events: seq<Event>)
    requires a.phase == WaitLoad
    requires forall k :: 0 <= k < |events| ==> events[k] != LoadFired
    ensures Run(a, events).phase == WaitLoad
    ensures Run(a, events).doc.scrollY == a.doc.scrollY
    decreases |events|
  {
    if |events| > 0 {
      var b := Step(a, events[0]);
      assert events[0] != LoadFired;
      NoApplyBeforeLoad(b, events[1..]);
    }
  }

  /** Once done, the applicator never writes the scroll offset again, whatever the page does. */
  lemma {:induction false} DoneIsTerminal(a: Applicator, events: seq<Event>)
    requires a.phase == Done
    ensures Run(a, events).phase == Done
    ensures Run(a, events).doc.scrollY == a.doc.scrollY
    decreases |events|
  {
    if |events| > 0 {
      DoneIsTerminal(Step(a, events[0]), events[1..]);
    }
  }

  /**
   * Apply-then-probe: once `load` has fired and the grace delay has elapsed,
   * probing the document gives back the scroll offset that was applied, and
   * also the video timestamp whenever a video exists and the timestamp is
   * positive; without a video the probe reports 0.
   */
  lemma ApplyThenProbe(doc: Document, data: Position)
    ensures var a := Run(SetPositionData(doc, data), [LoadFired, GraceElapsed]);
            && a.phase == Done
            && GetPositionData(a.doc).scrollPosition == data.scrollPosition
            && (|doc.videos| > 0 && data.videoTimestamp > 0.0 ==> GetPositionData(a.doc) == data)
            && (|doc.videos| == 0 ==> GetPositionData(a.doc).videoTimestamp == 0.0)
  {
    var a0 := SetPositionData(doc, data);
    var a1 := Step(a0, LoadFired);
    assert a1.phase == GraceDelay && a1.doc.scrollY == data.scrollPosition;
    var a2 := Step(a1, GraceElapsed);
    assert Run(a0, [LoadFired, GraceElapsed]) == Run(a1, [GraceElapsed]) == Run(a2, []) == a2;
  }
}

=== FILE: pipeline.dfy ===
/**
 * The pieces put together: a capture is posted to the server, stored,
 * served back by the latest-snapshot endpoint and turned into a restore
 * plan.
 */
module Pipeline {
  import opened Wrappers
  import opened Snapshot
  import Capture
  import Store
  import Restore

  /** The JSON body the extension posts: every tab field is present. */
  function Encode(s: Session): (posted: seq<Store.PostedWindow>)
    ensures |posted| == |s|
    ensures forall i :: 0 <= i < |s| ==>
              posted[i].windowId == s[i].windowId && Store.StoredTabs(posted[i].tabs) == s[i].tabs
  {
    var posted := seq(|s|, i requires 0 <= i < |s| =>
      Store.PostedWindow(s[i].windowId, seq(|s[i].tabs|, k requires 0 <= k < |s[i].tabs| =>
        var t := s[i].tabs[k];
        Store.PostedTab(t.url, Some(t.title), Some(t.scrollPosition), Some(t.videoTimestamp)))));
    assert forall i :: 0 <= i < |s| ==> Store.StoredTabs(posted[i].tabs) == s[i].tabs;
    posted
  }

  /** The latest-snapshot endpoint, which always answers with status "success". */
  function ServeLatest(st: Store.Store): (r: Restore.Pulled)
    ensures r.status == Restore.SuccessStatus
  {
    Restore.Pulled("success", Store.GetLatestTabs(st))
  }

  const SyncedMessage: string := "Tabs synced successfully"
  const SyncFailedMessage: string := "Error syncing tabs"

  /**
   * The popup's report on a push. The reply's contents are never examined:
   * any reply that parses as JSON, whatever it says, reads as success, and
   * only a failed request or an unparsable body reads as failure.
   */
  function SyncStatus<B>(reply: Result<B, Restore.TransportFailure>): (m: string)
    ensures m == SyncedMessage <==> reply.Success?
    ensures m == SyncFailedMessage <==> reply.Failure?
  {
    assert SyncedMessage[0] != SyncFailedMessage[0];
    match reply
    case Success(_) => SyncedMessage
    case Failure(_) => SyncFailedMessage
  }

  /**
   * Push then pull: a non-empty session saved with a stamp later than every
   * stored row comes back with the same windows in the same order and the
   * same url, title, scroll offset and video timestamp for every tab.
   */
  lemma {:induction false} PushThenPull(st: Store.Store, s: Session, stamp: Store.Stamp)
    requires Store.Valid(st)
    requires Store.IsFresh(st, stamp)
    requires |s| > 0
    ensures Contents(Store.GetLatestTabs(Store.SaveTabs(st, Encode(s), stamp).store)) == Contents(s)
  {
    var posted := Encode(s);
    var pulled := Store.GetLatestTabs(Store.SaveTabs(st, posted, stamp).store);
    Store.SaveThenGetLatest(st, posted, stamp);
    forall i | 0 <= i < |s|
      ensures pulled[i].tabs == s[i].tabs
    {
      assert pulled[i].tabs == Store.StoredTabs(posted[i].tabs);
    }
    SameTabsSameContents(pulled, s);
  }

  lemma SameTabsSameContents(a: Session, b: Session)
    requires |a| == |b| && forall i :: 0 <= i < |a| ==> a[i].tabs == b[i].tabs
    ensures Contents(a) == Contents(b)
  {
  }

  /** Two sessions with the same tabs restore to the same windows and tabs. */
  lemma SameContentsSameRestore(a: Session, b: Session)
    requires Contents(a) == Contents(b)
    ensures Restore.Expected(a) == Restore.Expected(b)
  {
    assert |a| == |Contents(a)| == |Contents(b)| == |b|;
    forall i | 0 <= i < |a| ensures a[i].tabs == b[i].tabs {
      assert Contents(a)[i] == Contents(b)[i];
    }
  }

  /**
   * Sync then restore: capturing a non-empty enumeration, pushing it, and
   * restoring from the server opens the captured windows and tabs in order,
   * each tab inactive at its url and given its captured position.
   */
  lemma {:induction false} SyncThenRestore(
    st: Store.Store, windows: seq<SourceWindow>, probe: Capture.Probe, stamp: Store.Stamp)
    requires Store.Valid(st)
    requires Store.IsFresh(st, stamp)
    requires |windows| > 0
    ensures var s := Capture.Assemble(windows, probe);
            var out := Restore.OpenSyncedTabs(Success(ServeLatest(Store.SaveTabs(st, Encode(s), stamp).store)));
            && out.Opened?
            && Restore.ParseWindows(out.actions) == Some(Restore.Expected(s))
  {
    var s := Capture.Assemble(windows, probe);
    PushThenPull(st, s, stamp);
    var pulled := Store.GetLatestTabs(Store.SaveTabs(st, Encode(s), stamp).store);
    assert |pulled| == |Contents(pulled)| == |Contents(s)| == |s|;
    SameContentsSameRestore(pulled, s);
  }
}

=== FILE: restore.dfy ===
/**
 * Restoring a pulled snapshot (`openSyncedTabs`): what it asks the host to
 * open is written as a plan, a flat list of actions grouped by window. Each
 * window contributes "create a window", then for each of its tabs "create
 * an inactive tab at this url" followed by "apply this scroll offset and
 * video timestamp". The plan records which tab goes into which window and
 * with what position; it is not the order in which the host calls are
 * issued, since the tab creations run in the window-creation callbacks.
 */
module Restore {
  import opened Wrappers
  import opened Snapshot

  /** The `{status, data}` body of the latest-snapshot response. */
  datatype Pulled = Pulled(status: string, data: Session)

  /** A failed request or a body that is not JSON. */
  datatype TransportFailure = TransportFailure

  datatype Action =
    | CreateWindow
    | CreateTab(url: string, active: bool)
    | ApplyPosition(scrollPosition: real, videoTimestamp: real)

  datatype RestoreOutcome = Opened(actions: seq<Action>) | NothingToRestore | PullFailed

  const SuccessStatus: string := "success"
  const OpenedMessage: string := "Tabs opened successfully"
  const NothingMessage: string := "No synced tabs found"
  const PullFailedMessage: string := "Error opening tabs"

  function TabActions(tab: Tab): seq<Action> {
    [CreateTab(tab.url, false), ApplyPosition(tab.scrollPosition, tab.videoTimestamp)]
  }

  function TabsActions(tabs: seq<Tab>): seq<Action>
    decreases |tabs|
  {
    if |tabs| == 0 then [] else TabActions(tabs[0]) + TabsActions(tabs[1..])
  }

  function WindowActions(w: Window): seq<Action> {
    [CreateWindow] + TabsActions(w.tabs)
  }

  function PlanActions(s: Session): (r: seq<Action>)
    // nothing is planned for an empty snapshot; otherwise the plan opens with a new window
    ensures |s| == 0 <==> r == []
    ensures |s| > 0 ==> r[0] == CreateWindow
    decreases |s|
  {
    if |s| == 0 then [] else WindowActions(s[0]) + PlanActions(s[1..])
  }

  /** The decision of `openSyncedTabs` on the pulled response. */
  function OpenSyncedTabs(response: Result<Pulled, TransportFailure>): (r: RestoreOutcome)
    ensures r.PullFailed? <==> response.Failure?
    ensures r.Opened? <==>
              response.Success? && response.value.status == SuccessStatus && |response.value.data| > 0
    ensures r.Opened? ==> ParseWindows(r.actions) == Some(Expected(response.value.data))
  {
    match response
    case Failure(_) => PullFailed
    case Success(pulled) =>
      if pulled.status == SuccessStatus && |pulled.data| > 0 then
        PlanRoundTrip(pulled.data, []);
        assert PlanActions(pulled.data) + [] == PlanActions(pulled.data);
        assert Expected(pulled.data) + [] == Expected(pulled.data);
        Opened(PlanActions(pulled.data))
      else NothingToRestore
  }

  function StatusMessage(r: RestoreOutcome): string {
    match r
    case Opened(_) => OpenedMessage
    case NothingToRestore => NothingMessage
    case PullFailed => PullFailedMessage
  }

  /** What a restored tab is given: its url and the position to apply. */
  datatype Reopened = Reopened(url: string, position: Position)

  function ExpectedTabs(tabs: seq<Tab>): seq<Reopened> {
    seq(|tabs|, k requires 0 <= k < |tabs| =>
      Reopened(tabs[k].url, Position(tabs[k].scrollPosition, tabs[k].videoTimestamp)))
  }

  /** The windows and tabs a restore of `s` must produce, window handles dropped. */
  function Expected(s: Session): seq<seq<Reopened>> {
    seq(|s|, i requires 0 <= i < |s| => ExpectedTabs(s[i].tabs))
  }

  /**
   * Reads back the tabs of one window from a plan: pairs of an inactive
   * tab creation and a position application, up to the next window or the
   * end. Returns the tabs and the unread rest of the plan.
   */
  function ParseTabs(actions: seq<Action>): (r: (seq<Reopened>, seq<Action>))
    ensures |r.1| <= |actions|
    decreases |actions|
  {
    if |actions| >= 2 && actions[0].CreateTab? && !actions[0].active && actions[1].ApplyPosition? then
      var rest := ParseTabs(actions[2..]);
      var tab := Reopened(actions[0].url, Position(actions[1].scrollPosition, actions[1].videoTimestamp));
      ([tab] + rest.0, rest.1)
    else
      ([], actions)
  }

  /** Reads back the windows of a plan; `None` when the plan is not well formed. */
  function ParseWindows(actions: seq<Action>): Option<seq<seq<Reopened>>>
    decreases |actions|
  {
    if |actions| == 0 then Some([])
    else if actions[0] != CreateWindow then None
    else
      var (tabs, rest) := ParseTabs(actions[1..]);
      match ParseWindows(rest)
      case None => None
      case Some(windows) => Some([tabs] + windows)
  }

  /** A plan boundary: the end of the plan or the start of the next window. */
  predicate AtWindowBoundary(rest: seq<Action>) {
    |rest| == 0 || rest[0] == CreateWindow
  }

  /** Reading one tab's pair of actions, then whatever follows. */
  lemma ParseTabsStep(tab: Tab, more: seq<Action>)
    ensures ParseTabs(TabActions(tab) + more)
            == ([ExpectedTabs([tab])[0]] + ParseTabs(more).0, ParseTabs(more).1)
  {
    var actions := TabActions(tab) + more;
    assert actions[0] == CreateTab(tab.url, false);
    assert actions[1] == ApplyPosition(tab.scrollPosition, tab.videoTimestamp);
    assert actions[2..] == more;
  }

  lemma TabsActionsCons(tabs: seq<Tab>, rest: seq<Action>)
    requires |tabs| > 0
    ensures TabsActions(tabs) + rest == TabActions(tabs[0]) + (TabsActions(tabs[1..]) + rest)
  {
  }

  lemma ExpectedTabsCons(tabs: seq<Tab>)
    requires |tabs| > 0
    ensures ExpectedTabs(tabs) == [ExpectedTabs([tabs[0]])[0]] + ExpectedTabs(tabs[1..])
  {
  }

  lemma {:induction false} TabsRoundTrip(tabs: seq<Tab>, rest: seq<Action>)
    requires AtWindowBoundary(rest)
    ensures ParseTabs(TabsActions(tabs) + rest) == (ExpectedTabs(tabs), rest)
    decreases |tabs|
  {
    if |tabs| == 0 {
      assert TabsActions(tabs) + rest == rest;
      assert ExpectedTabs(tabs) == [];
    } else {
      var more := TabsActions(tabs[1..]) + rest;
      TabsActionsCons(tabs, rest);
      ParseTabsStep(tabs[0], more);
      TabsRoundTrip(tabs[1..], rest);
      ExpectedTabsCons(tabs);
    }
  }

  /** Reading one window: its tabs, then the windows after them. */
  lemma ParseWindowsStep(body: seq<Action>, tabs: seq<Reopened>, tail: seq<Action>)
    requires ParseTabs(body) == (tabs, tail)
    requires ParseWindows(tail).Some?
    ensures ParseWindows([CreateWindow] + body) == Some([tabs] + ParseWindows(tail).value)
  {
    assert ([CreateWindow] + body)[1..] == body;
  }

  /** A plan, followed by a rest that starts at a window boundary, starts at a window boundary. */
  lemma PlanStartsAtBoundary(s: Session, rest: seq<Action>)
    requires AtWindowBoundary(rest)
    ensures AtWindowBoundary(PlanActions(s) + rest)
  {
    if |s| > 0 {
      assert (PlanActions(s) + rest)[0] == WindowActions(s[0])[0];
    }
  }

  lemma PlanActionsCons(s: Session, rest: seq<Action>)
    requires |s| > 0
    ensures PlanActions(s) + rest == [CreateWindow] + (TabsActions(s[0].tabs) + (PlanActions(s[1..]) + rest))
  {
    assert PlanActions(s) == ([CreateWindow] + TabsActions(s[0].tabs)) + PlanActions(s[1..]);
    Regroup([CreateWindow], TabsActions(s[0].tabs), PlanActions(s[1..]), rest);
  }

  /** Concatenation of four action lists, regrouped to the right. */
  lemma Regroup(a: seq<Action>, b: seq<Action>, c: seq<Action>, d: seq<Action>)
    ensures ((a + b) + c) + d == a + (b + (c + d))
  {
  }

  /**
   * Plan round trip: reading back the plan for `s`, followed by any
   * well-formed rest, gives `s`'s windows and tabs followed by the rest's.
   */
  lemma {:induction false} PlanRoundTrip(s: Session, rest: seq<Action>)
    requires ParseWindows(rest).Some?
    ensures ParseWindows(PlanActions(s) + rest) == Some(Expected(s) + ParseWindows(rest).value)
    decreases |s|
  {
    var tailWindows := ParseWindows(rest).value;
    if |s| == 0 {
      assert PlanActions(s) + rest == rest;
      assert Expected(s) + tailWindows == tailWindows;
    } else {
      var tail := PlanActions(s[1..]) + rest;
      var first := ExpectedTabs(s[0].tabs);
      PlanRoundTrip(s[1..], rest);
      assert AtWindowBoundary(tail) by {
        assert AtWindowBoundary(rest) by {
          if |rest| > 0 {
            assert rest[0] == CreateWindow;
          }
        }
        PlanStartsAtBoundary(s[1..], rest);
      }
      var body := TabsActions(s[0].tabs) + tail;
      assert ParseTabs(body) == (first, tail) by {
        TabsRoundTrip(s[0].tabs, tail);
      }
      assert PlanActions(s) + rest == [CreateWindow] + body by {
        PlanActionsCons(s, rest);
      }
      assert ParseWindows([CreateWindow] + body) == Some([first] + (Expected(s[1..]) + tailWindows)) by {
        ParseWindowsStep(body, first, tail);
      }
      assert Expected(s) + tailWindows == [first] + (Expected(s[1..]) + tailWindows) by {
        assert Expected(s) == [first] + Expected(s[1..]);
      }
    }
  }

  /**
   * Restoring the same pulled snapshot twice is not deduplicated: the two
   * plans together open every window and tab twice.
   */
  lemma RestoreTwiceDuplicates(pulled: Pulled)
    requires pulled.status == SuccessStatus && |pulled.data| > 0
    ensures var r := OpenSyncedTabs(Success(pulled));
            && r.Opened?
            && ParseWindows(r.actions + r.actions) ==
                 Some(Expected(pulled.data) + Expected(pulled.data))
  {
    var plan := PlanActions(pulled.data);
    PlanRoundTrip(pulled.data, []);
    assert plan + [] == plan;
    PlanRoundTrip(pulled.data, plan);
  }

  /**
   * The status `openSyncedTabs` shows: "Tabs opened successfully" exactly for
   * a successful pull with status "success" and data; "Error opening tabs"
   * exactly when the pull failed; "No synced tabs found" otherwise.
   */
  lemma StatusReportsOutcome(response: Result<Pulled, TransportFailure>)
    ensures StatusMessage(OpenSyncedTabs(response)) == OpenedMessage <==>
              response.Success? && response.value.status == SuccessStatus && |response.value.data| > 0
    ensures StatusMessage(OpenSyncedTabs(response)) == PullFailedMessage <==> response.Failure?
    ensures StatusMessage(OpenSyncedTabs(response)) == NothingMessage <==>
              response.Success? && (response.value.status != SuccessStatus || |response.value.data| == 0)
  {
    assert OpenedMessage[0] != NothingMessage[0] && NothingMessage[0] != PullFailedMessage[0];
    assert OpenedMessage[0] != PullFailedMessage[0];
  }

  /** An empty latest snapshot opens nothing and reports "No synced tabs found". */
  lemma EmptySnapshotOpensNothing()
    ensures OpenSyncedTabs(Success(Pulled("success", []))) == NothingToRestore
    ensures StatusMessage(OpenSyncedTabs(Success(Pulled("success", [])))) == NothingMessage
  {
  }
}

=== FILE: settings.dfy ===
/**
 * The server-URL setting: saving it from the popup's input field, and the
 * check every command (and the background cycle) makes before using it.
 */
module Settings {
  import opened Wrappers

  /** The characters `String.prototype.trim` removes: ECMAScript WhiteSpace and LineTerminator. */
  const Whitespace: set<char> := {
    ' ', '\t', '\n', '\r', '\U{000B}', '\U{000C}', '\U{00A0}', '\U{FEFF}', '\U{1680}',
    '\U{2000}', '\U{2001}', '\U{2002}', '\U{2003}', '\U{2004}', '\U{2005}',
    '\U{2006}', '\U{2007}', '\U{2008}', '\U{2009}', '\U{200A}',
    '\U{2028}', '\U{2029}', '\U{202F}', '\U{205F}', '\U{3000}'
  }

  predicate IsTrimmable(c: char) {
    c in Whitespace
  }

  function TrimStart(s: string): (r: string)
    ensures |r| <= |s| && r == s[|s| - |r|..]
    ensures |r| > 0 ==> !IsTrimmable(r[0])
    ensures forall k :: 0 <= k < |s| - |r| ==> IsTrimmable(s[k])
    decreases |s|
  {
    if |s| > 0 && IsTrimmable(s[0]) then
      var r := TrimStart(s[1..]);
      assert s[1..][|s| - 1 - |r|..] == s[|s| - |r|..];
      assert forall k :: 1 <= k < |s| - |r| ==> s[k] == s[1..][k - 1];
      r
    else s
  }

  function TrimEnd(s: string): (r: string)
    ensures |r| <= |s| && r == s[..|r|]
    ensures |r| > 0 ==> !IsTrimmable(r[|r| - 1])
    ensures forall k :: |r| <= k < |s| ==> IsTrimmable(s[k])
    decreases |s|
  {
    if |s| > 0 && IsTrimmable(s[|s| - 1]) then TrimEnd(s[..|s| - 1]) else s
  }

  /** The input with only leading and trailing whitespace removed: `s[a..b]` with whitespace outside it. */
  predicate IsTrimmedSlice(s: string, r: string, a: int, b: int) {
    && 0 <= a <= b <= |s| && r == s[a..b]
    && (forall k :: 0 <= k < a ==> IsTrimmable(s[k]))
    && (forall k :: b <= k < |s| ==> IsTrimmable(s[k]))
  }

  /** `String.prototype.trim`. */
  function Trim(s: string): (r: string)
    ensures exists a, b :: IsTrimmedSlice(s, r, a, b)
    ensures |r| == 0 <==> forall k :: 0 <= k < |s| ==> IsTrimmable(s[k])
    ensures |r| > 0 ==> !IsTrimmable(r[0]) && !IsTrimmable(r[|r| - 1])
  {
    TrimFacts(s);
    TrimKeepsSlice(s);
    TrimEnd(TrimStart(s))
  }

  /** Trimming keeps a contiguous slice of the input and drops only whitespace around it. */
  lemma TrimIsSlice(s: string, t: string, r: string)
    requires |t| <= |s| && t == s[|s| - |t|..] && forall k :: 0 <= k < |s| - |t| ==> IsTrimmable(s[k])
    requires |r| <= |t| && r == t[..|r|] && forall k :: |r| <= k < |t| ==> IsTrimmable(t[k])
    ensures IsTrimmedSlice(s, r, |s| - |t|, |s| - |t| + |r|)
  {
    var d := |s| - |t|;
    forall k | 0 <= k < |r|
      ensures r[k] == s[d + k]
    {
      assert r[k] == t[k];
    }
    assert r == s[d..d + |r|];
    forall k | d + |r| <= k < |s|
      ensures IsTrimmable(s[k])
    {
      assert s[k] == t[k - d];
    }
  }

  lemma TrimKeepsSlice(s: string)
    ensures exists a, b :: IsTrimmedSlice(s, TrimEnd(TrimStart(s)), a, b)
  {
    var t := TrimStart(s);
    var r := TrimEnd(t);
    TrimIsSlice(s, t, r);
    assert IsTrimmedSlice(s, r, |s| - |t|, |s| - |t| + |r|);
  }

  lemma TrimFacts(s: string)
    ensures var r := TrimEnd(TrimStart(s));
            && (|r| == 0 <==> forall k :: 0 <= k < |s| ==> IsTrimmable(s[k]))
            && (|r| > 0 ==> !IsTrimmable(r[0]) && !IsTrimmable(r[|r| - 1]))
  {
    var t := TrimStart(s);
    var r := TrimEnd(t);
    var d := |s| - |t|;
    if |r| > 0 {
      assert r[0] == t[0] == s[d];
    }
  }

  /** The outcome of pressing "Save settings". */
  datatype SaveOutcome = Saved(serverUrl: string) | Rejected

  const InvalidUrlMessage: string := "Please enter a valid server URL"
  const SavedMessage: string := "Settings saved"

  /** The save handler: a trimmed, non-empty value is stored; anything else is rejected. */
  function SaveSettings(input: string): (r: SaveOutcome)
    ensures r.Saved? <==> exists k :: 0 <= k < |input| && !IsTrimmable(input[k])
    ensures r.Saved? ==> r.serverUrl == Trim(input) && |r.serverUrl| > 0
  {
    var serverUrl := Trim(input);
    if |serverUrl| > 0 then Saved(serverUrl) else Rejected
  }

  function SaveMessage(r: SaveOutcome): string {
    if r.Saved? then SavedMessage else InvalidUrlMessage
  }

  /** JavaScript truthiness of the stored setting: present and not the empty string. */
  predicate Configured(stored: Option<string>) {
    stored.Some? && |stored.value| > 0
  }

  datatype Command = SyncNow | OpenSynced | ViewHistory

  datatype Dispatch = NeedServerUrl | Proceed(command: Command, serverUrl: string)

  const MissingUrlMessage: string := "Please set server URL first"

  /** The check the sync, open and view buttons make before acting. */
  function DispatchCommand(stored: Option<string>, command: Command): (d: Dispatch)
    ensures d.NeedServerUrl? <==> !Configured(stored)
    ensures d.Proceed? ==> d.command == command && d.serverUrl == stored.value && |d.serverUrl| > 0
  {
    if Configured(stored) then Proceed(command, stored.value) else NeedServerUrl
  }

  /** What the popup shows at the gate: the missing-URL text when a command is refused. */
  function GateMessage(d: Dispatch): Option<string> {
    if d.NeedServerUrl? then Some(MissingUrlMessage) else None
  }

  /** "Please set server URL first" is shown exactly when no non-empty server URL is stored. */
  lemma GateReportsMissingUrl(stored: Option<string>, command: Command)
    ensures GateMessage(DispatchCommand(stored, command)) == Some(MissingUrlMessage) <==> !Configured(stored)
    ensures Configured(stored) ==> GateMessage(DispatchCommand(stored, command)) == None
  {
  }

  /** A setting that was accepted lets every command through with exactly that URL. */
  lemma SavedSettingEnablesCommands(input: string, command: Command)
    requires exists k :: 0 <= k < |input| && !IsTrimmable(input[k])
    ensures SaveSettings(input) == Saved(Trim(input))
    ensures DispatchCommand(Some(Trim(input)), command) == Proceed(command, Trim(input))
  {
  }

  /** The status the save handler shows: "Settings saved" exactly when the input has a non-whitespace character. */
  lemma SaveReportsOutcome(input: string)
    ensures SaveMessage(SaveSettings(input)) == SavedMessage <==>
              exists k :: 0 <= k < |input| && !IsTrimmable(input[k])
    ensures SaveMessage(SaveSettings(input)) == InvalidUrlMessage <==>
              forall k :: 0 <= k < |input| ==> IsTrimmable(input[k])
  {
    assert SavedMessage[0] != InvalidUrlMessage[0];
  }
}

=== FILE: snapshot.dfy ===
/**
 * The snapshot data model: what a capture produces, what is pushed to and
 * pulled from the server, and what restore consumes.
 */
module Snapshot {

  /** Vertical scroll offset in pixels and playback time of the first video in seconds. */
  datatype Position = Position(scrollPosition: real, videoTimestamp: real)

  /** One captured tab: the JSON object `{url, title, scrollPosition, videoTimestamp}`. */
  datatype Tab = Tab(url: string, title: string, scrollPosition: real, videoTimestamp: real)

  /** One captured window: `{window_id, tabs}`; tab order is the order inside the window. */
  datatype Window = Window(windowId: int, tabs: seq<Tab>)

  /** A whole session, windows in enumeration order. */
  type Session = seq<Window>

  /** A tab as the browser enumerates it (`chrome.windows.getAll({populate: true})`). */
  datatype SourceTab = SourceTab(id: int, url: string, title: string)

  /** A window as the browser enumerates it, with its tabs in order. */
  datatype SourceWindow = SourceWindow(id: int, tabs: seq<SourceTab>)

  /** The per-tab contents of a session with the window handles dropped. */
  function Contents(s: Session): seq<seq<Tab>> {
    seq(|s|, i requires 0 <= i < |s| => s[i].tabs)
  }
}

=== FILE: store.dfy ===
/**
 * The server's store: two append-only tables of rows, `windows` and `tabs`,
 * and the three operations on them. Each save stamps all of its rows with
 * one timestamp, supplied by the caller; timestamps are ordered values.
 * Table scans return rows in insertion (rowid) order.
 */
module Store {
  import opened Wrappers
  import opened Snapshot

  type Stamp = int

  datatype WindowRow = WindowRow(id: nat, createdAt: Stamp)

  datatype TabRow = TabRow(
    windowId: nat, url: string, title: string,
    scrollPosition: real, videoTimestamp: real, createdAt: Stamp)

  /** Both tables, and the next id the `windows` table's AUTOINCREMENT key will hand out. */
  datatype Store = Store(windows: seq<WindowRow>, tabs: seq<TabRow>, nextId: nat)

  /** A tab as posted by a client: every field but `url` may be missing. */
  datatype PostedTab = PostedTab(
    url: string, title: Option<string>,
    scrollPosition: Option<real>, videoTimestamp: Option<real>)

  datatype PostedWindow = PostedWindow(windowId: int, tabs: seq<PostedTab>)

  /** A freshly initialised database. */
  const Empty: Store := Store([], [], 1)

  /**
   * Window ids increase in table order and stay below the next id; every
   * tab row references an id already handed out.
   */
  predicate Valid(st: Store) {
    && (forall k :: 0 <= k < |st.windows| ==> st.windows[k].id < st.nextId)
    && (forall j, k :: 0 <= j < k < |st.windows| ==> st.windows[j].id < st.windows[k].id)
    && (forall k :: 0 <= k < |st.tabs| ==> st.tabs[k].windowId < st.nextId)
  }

  lemma EmptyIsValid()
    ensures Valid(Empty) && |Empty.windows| == 0 && |Empty.tabs| == 0
  {
  }

  // ---------------------------------------------------------------- save_tabs

  /** The stored form of a posted tab: missing title is `''`, missing positions are 0. */
  function StoredTab(t: PostedTab): (r: Tab)
    ensures r.url == t.url
    ensures r.title == (if t.title.Some? then t.title.value else "")
    ensures r.scrollPosition == (if t.scrollPosition.Some? then t.scrollPosition.value else 0.0)
    ensures r.videoTimestamp == (if t.videoTimestamp.Some? then t.videoTimestamp.value else 0.0)
  {
    Tab(t.url, t.title.GetOr(""), t.scrollPosition.GetOr(0.0), t.videoTimestamp.GetOr(0.0))
  }

  function StoredTabs(tabs: seq<PostedTab>): seq<Tab> {
    seq(|tabs|, k requires 0 <= k < |tabs| => StoredTab(tabs[k]))
  }

  /** The tab a row reads back as. */
  function RowTab(row: TabRow): Tab {
    Tab(row.url, row.title, row.scrollPosition, row.videoTimestamp)
  }

  function TabRowFor(windowId: nat, t: PostedTab, stamp: Stamp): TabRow {
    var stored := StoredTab(t);
    TabRow(windowId, stored.url, stored.title, stored.scrollPosition, stored.videoTimestamp, stamp)
  }

  /** The tab rows of one posted window, all pointing at the window row just inserted. */
  function TabRowsFor(windowId: nat, tabs: seq<PostedTab>, stamp: Stamp): seq<TabRow> {
    seq(|tabs|, k requires 0 <= k < |tabs| => TabRowFor(windowId, tabs[k], stamp))
  }

  /** The tab rows a save of `data` appends when its first window gets id `first`. */
  function NewTabRows(first: nat, data: seq<PostedWindow>, stamp: Stamp): seq<TabRow>
    decreases |data|
  {
    if |data| == 0 then []
    else TabRowsFor(first, data[0].tabs, stamp) + NewTabRows(first + 1, data[1..], stamp)
  }

  /** Every tab row a save appends references one of the ids that save allocates and carries its stamp. */
  lemma {:induction false} NewTabRowsReferenceNewWindows(first: nat, data: seq<PostedWindow>, stamp: Stamp)
    ensures forall row :: row in NewTabRows(first, data, stamp) ==>
              first <= row.windowId < first + |data| && row.createdAt == stamp
    decreases |data|
  {
    if |data| > 0 {
      var head := TabRowsFor(first, data[0].tabs, stamp);
      var tail := NewTabRows(first + 1, data[1..], stamp);
      NewTabRowsReferenceNewWindows(first + 1, data[1..], stamp);
      var rows := head + tail;
      assert NewTabRows(first, data, stamp) == rows;
      forall k | 0 <= k < |rows|
        ensures first <= rows[k].windowId < first + |data| && rows[k].createdAt == stamp
      {
        if k < |head| {
          assert rows[k] == head[k] == TabRowFor(first, data[0].tabs[k], stamp);
        } else {
          var j := k - |head|;
          assert rows[k] == tail[j];
          assert tail[j] in tail;
        }
      }
    }
  }

  /** The window rows a save of `n` windows appends when the first gets id `first`. */
  function NewWindowRows(first: nat, n: nat, stamp: Stamp): seq<WindowRow> {
    seq(n, k requires 0 <= k < n => WindowRow(first + k, stamp))
  }

  /** The loop of `save_tabs`: per posted window, insert a window row, then its tab rows. */
  function InsertWindows(st: Store, data: seq<PostedWindow>, stamp: Stamp): (r: Store)
    ensures r.windows == st.windows + NewWindowRows(st.nextId, |data|, stamp)
    ensures r.tabs == st.tabs + NewTabRows(st.nextId, data, stamp)
    ensures r.nextId == st.nextId + |data|
    decreases |data|
  {
    if |data| == 0 then
      assert st.windows + NewWindowRows(st.nextId, 0, stamp) == st.windows;
      assert st.tabs + NewTabRows(st.nextId, data, stamp) == st.tabs;
      st
    else
      var windowId := st.nextId;
      var inserted := Store(
        st.windows + [WindowRow(windowId, stamp)],
        st.tabs + TabRowsFor(windowId, data[0].tabs, stamp),
        windowId + 1);
      InsertWindows(inserted, data[1..], stamp)
  }

  datatype Saved = Saved(store: Store, ok: bool)

  /**
   * `save_tabs`: appends one window row per posted window and its tab rows,
   * all stamped `stamp`; ids come from the store, never from the client.
   */
  function SaveTabs(st: Store, data: seq<PostedWindow>, stamp: Stamp): (r: Saved)
    ensures r.ok
    // append-only: existing rows are untouched
    ensures st.windows <= r.store.windows && st.tabs <= r.store.tabs
    ensures |r.store.windows| == |st.windows| + |data|
    ensures forall k :: |st.windows| <= k < |r.store.windows| ==>
              r.store.windows[k].createdAt == stamp && r.store.windows[k].id >= st.nextId
    // ids are allocated by the store in order, whatever window ids the client posted
    ensures forall k :: |st.windows| <= k < |r.store.windows| ==>
              r.store.windows[k].id == st.nextId + (k - |st.windows|)
    ensures forall k :: |st.tabs| <= k < |r.store.tabs| ==>
              r.store.tabs[k].createdAt == stamp && r.store.tabs[k].windowId >= st.nextId
    ensures Valid(st) ==> Valid(r.store)
    ensures |data| == 0 ==> r.store == st
  {
    var after := InsertWindows(st, data, stamp);
    NewTabRowsReferenceNewWindows(st.nextId, data, stamp);
    assert st.windows <= after.windows;
    assert after.tabs[..|st.tabs|] == st.tabs;
    assert forall k :: |st.tabs| <= k < |after.tabs| ==>
             after.tabs[k] == NewTabRows(st.nextId, data, stamp)[k - |st.tabs|];
    Saved(after, true)
  }

  // ---------------------------------------------------------- get_latest_tabs

  function Max(xs: seq<int>): (m: int)
    requires |xs| > 0
    ensures m in xs
    ensures forall k :: 0 <= k < |xs| ==> xs[k] <= m
    decreases |xs|
  {
    if |xs| == 1 then xs[0]
    else
      var rest := Max(xs[1..]);
      assert forall k :: 1 <= k < |xs| ==> xs[k] == xs[1..][k - 1];
      if xs[0] >= rest then xs[0] else rest
  }

  function Stamps(rows: seq<WindowRow>): (r: seq<Stamp>)
    ensures |r| == |rows|
    ensures forall k :: 0 <= k < |rows| ==> r[k] == rows[k].createdAt
  {
    seq(|rows|, k requires 0 <= k < |rows| => rows[k].createdAt)
  }

  /** `ORDER BY created_at DESC LIMIT 1`. */
  function LatestStamp(st: Store): Stamp
    requires |st.windows| > 0
  {
    Max(Stamps(st.windows))
  }

  /** `SELECT id FROM windows WHERE created_at = ?`, in table order. */
  function WindowsAt(rows: seq<WindowRow>, stamp: Stamp): (r: seq<WindowRow>)
    ensures |r| <= |rows|
    decreases |rows|
  {
    if |rows| == 0 then []
    else (if rows[0].createdAt == stamp then [rows[0]] else []) + WindowsAt(rows[1..], stamp)
  }

  /** The selected rows are exactly the rows carrying the stamp. */
  lemma {:induction false} WindowsAtSelects(rows: seq<WindowRow>, stamp: Stamp)
    ensures forall w :: w in WindowsAt(rows, stamp) <==> w in rows && w.createdAt == stamp
    decreases |rows|
  {
    if |rows| > 0 {
      WindowsAtSelects(rows[1..], stamp);
      assert rows == [rows[0]] + rows[1..];
    }
  }

  /** `SELECT ... FROM tabs WHERE window_id = ?`, in table order, as tabs. */
  function TabsOf(rows: seq<TabRow>, windowId: nat): (r: seq<Tab>)
    ensures |r| <= |rows|
    decreases |rows|
  {
    if |rows| == 0 then []
    else (if rows[0].windowId == windowId then [RowTab(rows[0])] else []) + TabsOf(rows[1..], windowId)
  }

  function WindowOut(st: Store, row: WindowRow): Window {
    Window(row.id, TabsOf(st.tabs, row.id))
  }

  /** `get_latest_tabs`: every window of the latest save, each with its tabs. */
  function GetLatestTabs(st: Store): (r: Session)
    ensures |st.windows| == 0 ==> r == []
    // the latest stamp is the maximum stamp (the rows carrying it: `WindowsAtSelects`)
    ensures |st.windows| > 0 ==>
              forall k :: 0 <= k < |st.windows| ==> st.windows[k].createdAt <= LatestStamp(st)
    // one entry per selected row, in order, each with that row's id and exactly its tabs
    ensures |st.windows| > 0 ==>
              && 0 < |r| == |WindowsAt(st.windows, LatestStamp(st))|
              && forall i :: 0 <= i < |r| ==>
                   r[i].windowId == WindowsAt(st.windows, LatestStamp(st))[i].id
                   && r[i].tabs == TabsOf(st.tabs, r[i].windowId)
  {
    if |st.windows| == 0 then []
    else
      var latest := WindowsAt(st.windows, LatestStamp(st));
      LatestIsPresent(st);
      seq(|latest|, i requires 0 <= i < |latest| => WindowOut(st, latest[i]))
  }

  /** Some stored window carries the latest stamp. */
  lemma {:induction false} LatestIsPresent(st: Store)
    requires |st.windows| > 0
    ensures |WindowsAt(st.windows, LatestStamp(st))| > 0
  {
    var stamps := Stamps(st.windows);
    var k :| 0 <= k < |stamps| && stamps[k] == LatestStamp(st);
    WindowsAtSelects(st.windows, LatestStamp(st));
    assert st.windows[k] in WindowsAt(st.windows, LatestStamp(st));
  }

  // -------------------------------------------------------- round-trip lemmas

  lemma {:induction false} WindowsAtAppend(a: seq<WindowRow>, b: seq<WindowRow>, stamp: Stamp)
    ensures WindowsAt(a + b, stamp) == WindowsAt(a, stamp) + WindowsAt(b, stamp)
    decreases |a|
  {
    if |a| == 0 {
      assert a + b == b;
    } else {
      var head := if a[0].createdAt == stamp then [a[0]] else [];
      assert (a + b)[0] == a[0] && (a + b)[1..] == a[1..] + b;
      assert WindowsAt(a + b, stamp) == head + WindowsAt(a[1..] + b, stamp);
      assert WindowsAt(a, stamp) == head + WindowsAt(a[1..], stamp);
      WindowsAtAppend(a[1..], b, stamp);
      assert head + (WindowsAt(a[1..], stamp) + WindowsAt(b, stamp))
          == (head + WindowsAt(a[1..], stamp)) + WindowsAt(b, stamp);
    }
  }

  lemma {:induction false} WindowsAtNone(rows: seq<WindowRow>, stamp: Stamp)
    requires forall k :: 0 <= k < |rows| ==> rows[k].createdAt != stamp
    ensures WindowsAt(rows, stamp) == []
    decreases |rows|
  {
    if |rows| > 0 {
      WindowsAtNone(rows[1..], stamp);
    }
  }

  lemma {:induction false} WindowsAtAll(rows: seq<WindowRow>, stamp: Stamp)
    requires forall k :: 0 <= k < |rows| ==> rows[k].createdAt == stamp
    ensures WindowsAt(rows, stamp) == rows
    decreases |rows|
  {
    if |rows| > 0 {
      WindowsAtAll(rows[1..], stamp);
      assert rows == [rows[0]] + rows[1..];
    }
  }

  lemma {:induction false} TabsOfAppend(a: seq<TabRow>, b: seq<TabRow>, windowId: nat)
    ensures TabsOf(a + b, windowId) == TabsOf(a, windowId) + TabsOf(b, windowId)
    decreases |a|
  {
    if |a| == 0 {
      assert a + b == b;
    } else {
      assert (a + b)[1..] == a[1..] + b;
      TabsOfAppend(a[1..], b, windowId);
    }
  }

  lemma {:induction false} TabsOfNone(rows: seq<TabRow>, windowId: nat)
    requires forall k :: 0 <= k < |rows| ==> rows[k].windowId != windowId
    ensures TabsOf(rows, windowId) == []
    decreases |rows|
  {
    if |rows| > 0 {
      TabsOfNone(rows[1..], windowId);
    }
  }

  lemma {:induction false} TabsOfOneWindow(windowId: nat, tabs: seq<PostedTab>, stamp: Stamp)
    ensures TabsOf(TabRowsFor(windowId, tabs, stamp), windowId) == StoredTabs(tabs)
    decreases |tabs|
  {
    var rows := TabRowsFor(windowId, tabs, stamp);
    if |tabs| > 0 {
      TabsOfOneWindow(windowId, tabs[1..], stamp);
      assert rows[1..] == TabRowsFor(windowId, tabs[1..], stamp);
      assert StoredTabs(tabs) == [StoredTab(tabs[0])] + StoredTabs(tabs[1..]);
    } else {
      assert StoredTabs(tabs) == [];
    }
  }

  /** Tab rows written for one window are never selected for another. */
  lemma TabsOfOtherWindow(windowId: nat, tabs: seq<PostedTab>, stamp: Stamp, other: nat)
    requires other != windowId
    ensures TabsOf(TabRowsFor(windowId, tabs, stamp), other) == []
  {
    var rows := TabRowsFor(windowId, tabs, stamp);
    forall k | 0 <= k < |rows|
      ensures rows[k].windowId != other
    {
      assert rows[k] == TabRowFor(windowId, tabs[k], stamp);
    }
    TabsOfNone(rows, other);
  }

  /** Tab rows of later windows of the same save are never selected for an earlier id. */
  lemma TabsOfEarlierWindow(first: nat, data: seq<PostedWindow>, stamp: Stamp)
    ensures TabsOf(NewTabRows(first + 1, data, stamp), first) == []
  {
    NewTabRowsReferenceNewWindows(first + 1, data, stamp);
    TabsOfNone(NewTabRows(first + 1, data, stamp), first);
  }

  /** Selecting the tab rows of the `i`-th new window gives back exactly that window's posted tabs. */
  lemma {:induction false} TabsOfNewWindow(first: nat, data: seq<PostedWindow>, stamp: Stamp, i: nat)
    requires i < |data|
    ensures TabsOf(NewTabRows(first, data, stamp), first + i) == StoredTabs(data[i].tabs)
    decreases |data|
  {
    var head := TabRowsFor(first, data[0].tabs, stamp);
    var tail := NewTabRows(first + 1, data[1..], stamp);
    assert NewTabRows(first, data, stamp) == head + tail;
    TabsOfAppend(head, tail, first + i);
    if i == 0 {
      TabsOfOneWindow(first, data[0].tabs, stamp);
      TabsOfEarlierWindow(first, data[1..], stamp);
    } else {
      TabsOfOtherWindow(first, data[0].tabs, stamp, first + i);
      TabsOfNewWindow(first + 1, data[1..], stamp, i - 1);
      assert data[1..][i - 1] == data[i];
    }
  }

  /** A stamp later than every row already stored. */
  predicate IsFresh(st: Store, stamp: Stamp) {
    forall k :: 0 <= k < |st.windows| ==> st.windows[k].createdAt < stamp
  }

  /**
   * Push/pull round trip: after a non-empty save whose stamp is later than
   * every stored row, `get_latest_tabs` returns exactly the saved windows,
   * in order, with freshly allocated ids and with each tab's url, title,
   * scroll offset and video timestamp as stored.
   */
  lemma {:induction false} SaveThenGetLatest(st: Store, data: seq<PostedWindow>, stamp: Stamp)
    requires Valid(st)
    requires IsFresh(st, stamp)
    requires |data| > 0
    ensures var r := GetLatestTabs(SaveTabs(st, data, stamp).store);
            && |r| == |data|
            && forall i :: 0 <= i < |data| ==>
                 r[i].windowId == st.nextId + i && r[i].tabs == StoredTabs(data[i].tabs)
  {
    var after := SaveTabs(st, data, stamp).store;
    FreshSaveIsLatest(st, data, stamp);
    assert after.tabs == st.tabs + NewTabRows(st.nextId, data, stamp);
    forall i | 0 <= i < |data|
      ensures GetLatestTabs(after)[i] == Window(st.nextId + i, StoredTabs(data[i].tabs))
    {
      ReadBackSaved(after, st, data, stamp, i);
    }
  }

  /** Reading back the `i`-th window of a save, once its rows are known to be the latest. */
  lemma {:induction false} ReadBackSaved(after: Store, st: Store, data: seq<PostedWindow>, stamp: Stamp, i: nat)
    requires forall k :: 0 <= k < |st.tabs| ==> st.tabs[k].windowId < st.nextId
    requires after.tabs == st.tabs + NewTabRows(st.nextId, data, stamp)
    requires |after.windows| > 0
    requires WindowsAt(after.windows, LatestStamp(after)) == NewWindowRows(st.nextId, |data|, stamp)
    requires i < |data|
    ensures |GetLatestTabs(after)| == |data|
    ensures GetLatestTabs(after)[i] == Window(st.nextId + i, StoredTabs(data[i].tabs))
  {
    var added := NewWindowRows(st.nextId, |data|, stamp);
    var want := StoredTabs(data[i].tabs);
    var id: nat := st.nextId + i;
    assert added[i].id == id;
    assert TabsOf(after.tabs, id) == want by {
      SavedWindowTabs(st.tabs, st.nextId, data, stamp, i);
    }
    ReadBackWindow(after, added, i, want);
  }

  /** Reading back one of the latest windows, given which rows are latest and what its tab rows hold. */
  lemma {:induction false} ReadBackWindow(st: Store, latest: seq<WindowRow>, i: nat, tabs: seq<Tab>)
    requires |st.windows| > 0 && WindowsAt(st.windows, LatestStamp(st)) == latest
    requires i < |latest| && TabsOf(st.tabs, latest[i].id) == tabs
    ensures |GetLatestTabs(st)| == |latest|
    ensures GetLatestTabs(st)[i] == Window(latest[i].id, tabs)
  {
  }

  /** Appending rows stamped later than all others makes them exactly the latest rows. */
  lemma {:induction false} LatestOfAppend(older: seq<WindowRow>, added: seq<WindowRow>, stamp: Stamp)
    requires forall k :: 0 <= k < |older| ==> older[k].createdAt < stamp
    requires forall k :: 0 <= k < |added| ==> added[k].createdAt == stamp
    requires |added| > 0
    ensures Max(Stamps(older + added)) == stamp
    ensures WindowsAt(older + added, stamp) == added
  {
    var rows := older + added;
    var stamps := Stamps(rows);
    assert stamps[|older|] == stamp;
    var m := Max(stamps);
    assert m <= stamp by {
      var j :| 0 <= j < |stamps| && stamps[j] == m;
      if j >= |older| {
        assert rows[j] == added[j - |older|];
      }
    }
    WindowsAtAppend(older, added, stamp);
    WindowsAtNone(older, stamp);
    WindowsAtAll(added, stamp);
  }

  /** After a fresh non-empty save, the latest stamp is the save's and its windows are exactly the new rows. */
  lemma {:induction false} FreshSaveIsLatest(st: Store, data: seq<PostedWindow>, stamp: Stamp)
    requires IsFresh(st, stamp)
    requires |data| > 0
    ensures var after := SaveTabs(st, data, stamp).store;
            && LatestStamp(after) == stamp
            && WindowsAt(after.windows, stamp) == NewWindowRows(st.nextId, |data|, stamp)
  {
    var added := NewWindowRows(st.nextId, |data|, stamp);
    assert SaveTabs(st, data, stamp).store.windows == st.windows + added;
    LatestOfAppend(st.windows, added, stamp);
  }

  /** The tab rows read back for the `i`-th saved window are exactly its posted tabs. */
  lemma {:induction false} SavedWindowTabs(older: seq<TabRow>, first: nat, data: seq<PostedWindow>, stamp: Stamp, i: nat)
    requires forall k :: 0 <= k < |older| ==> older[k].windowId < first
    requires i < |data|
    ensures TabsOf(older + NewTabRows(first, data, stamp), first + i) == StoredTabs(data[i].tabs)
  {
    var id := first + i;
    var appended := NewTabRows(first, data, stamp);
    TabsOfAppend(older, appended, id);
    TabsOfNone(older, id);
    TabsOfNewWindow(first, data, stamp, i);
    assert TabsOf(older, id) + TabsOf(appended, id) == TabsOf(appended, id);
  }

  /** A save of no windows inserts nothing, so the latest snapshot stays the previous one. */
  lemma EmptySaveKeepsLatest(st: Store, stamp: Stamp)
    ensures GetLatestTabs(SaveTabs(st, [], stamp).store) == GetLatestTabs(st)
  {
  }

  // ------------------------------------------------------ get_all_tab_history

  datatype HistoryTab = HistoryTab(url: string, title: string)
  datatype HistoryWindow = HistoryWindow(windowId: int, tabs: seq<HistoryTab>)
  datatype HistoryEntry = HistoryEntry(timestamp: Stamp, windows: seq<HistoryWindow>)

  function RemoveAll(xs: seq<int>, x: int): (r: seq<int>)
    ensures forall y :: y in r <==> y in xs && y != x
    ensures |r| <= |xs|
    ensures x in xs ==> |r| < |xs|
    decreases |xs|
  {
    if |xs| == 0 then []
    else (if xs[0] == x then [] else [xs[0]]) + RemoveAll(xs[1..], x)
  }

  /** `SELECT DISTINCT created_at ... ORDER BY created_at DESC`. */
  function DistinctDescending(xs: seq<int>): (r: seq<int>)
    ensures forall y :: y in r <==> y in xs
    ensures forall j, k :: 0 <= j < k < |r| ==> r[j] > r[k]
    ensures |xs| > 0 ==> |r| > 0 && r[0] == Max(xs)
    decreases |xs|
  {
    if |xs| == 0 then []
    else
      var m := Max(xs);
      var rest := DistinctDescending(RemoveAll(xs, m));
      forall y | y in rest
        ensures y < m
      {
        assert y in xs && y != m;
        var k :| 0 <= k < |xs| && xs[k] == y;
      }
      var r := [m] + rest;
      forall j, k | 0 <= j < k < |r|
        ensures r[j] > r[k]
      {
        assert r[k] == rest[k - 1] && rest[k - 1] in rest;
        if j > 0 {
          assert r[j] == rest[j - 1];
        }
      }
      r
  }

  /** A tab as listed in the history: url and title only. */
  function Summary(tab: Tab): HistoryTab {
    HistoryTab(tab.url, tab.title)
  }

  function SummaryTabs(tabs: seq<Tab>): seq<HistoryTab> {
    seq(|tabs|, k requires 0 <= k < |tabs| => Summary(tabs[k]))
  }

  /** The history view of a session: the same windows and tabs, without positions. */
  function SummarySession(s: Session): seq<HistoryWindow> {
    seq(|s|, i requires 0 <= i < |s| => HistoryWindow(s[i].windowId, SummaryTabs(s[i].tabs)))
  }

  function HistoryAt(st: Store, stamp: Stamp): HistoryEntry {
    var rows := WindowsAt(st.windows, stamp);
    HistoryEntry(stamp, seq(|rows|, i requires 0 <= i < |rows| =>
      HistoryWindow(rows[i].id, SummaryTabs(TabsOf(st.tabs, rows[i].id)))))
  }

  function Timeline(h: seq<HistoryEntry>): seq<Stamp> {
    seq(|h|, k requires 0 <= k < |h| => h[k].timestamp)
  }

  /**
   * `get_all_tab_history`: one entry per distinct save stamp, newest first,
   * each listing its windows' tabs by url and title.
   */
  function GetAllTabHistory(st: Store): (h: seq<HistoryEntry>)
    ensures forall j, k :: 0 <= j < k < |h| ==> h[j].timestamp > h[k].timestamp
    ensures forall s :: s in Timeline(h) <==> s in Stamps(st.windows)
    ensures forall k :: 0 <= k < |h| ==> h[k] == HistoryAt(st, h[k].timestamp)
  {
    var stamps := DistinctDescending(Stamps(st.windows));
    var h := seq(|stamps|, k requires 0 <= k < |stamps| => HistoryAt(st, stamps[k]));
    assert Timeline(h) == stamps;
    h
  }

  /** The newest history entry is the latest snapshot with the positions dropped. */
  lemma {:induction false} HistoryHeadIsLatest(st: Store)
    requires |st.windows| > 0
    ensures var h := GetAllTabHistory(st);
            && |h| > 0
            && h[0].timestamp == LatestStamp(st)
            && h[0].windows == SummarySession(GetLatestTabs(st))
  {
    var h := GetAllTabHistory(st);
    var stamps := DistinctDescending(Stamps(st.windows));
    assert |h| == |stamps| > 0 && h[0].timestamp == stamps[0];
  }
}

=== FILE: wrappers.dfy ===
/** Failure-carrying value types shared by the rest of the model. */
module Wrappers {

  /** A value that may be absent, as an optional JSON field or an unset setting. */
  datatype Option<T> = None | Some(value: T) {

    /** The carried value, or `default` when absent (Python's `dict.get(key, default)`). */
    function GetOr(default: T): T {
      match this
      case Some(v) => v
      case None => default
    }
  }

  /** Either a computed value or the error that replaced it (a thrown exception, a failed request). */
  datatype Result<T, E> = Success(value: T) | Failure(error: E)
}
